=== FILE: README.md ===
# Simplification evaluation driver: a Dafny model

This project models the batch-evaluation script of the FUDGE
controlled-generation code for text simplification, `evaluate_simplify.py`.
The script reads a tab-separated test set one line per example. It keeps only
the source sentence, which is the first column of the stripped line. It feeds
the sources to the generator in batches of `batch_size` lines and writes every
generated text as one line of an output file. That file's name spells out all
the decoding hyperparameters. Its directory is named after the generation
model and the test set.

The model is in seven modules:

- `Wrappers`: the `Option` type, used where Python raises or returns nothing.
- `Seqs`: concatenating a sequence of batches (`Flatten`) and applying a
  function to every element (`MapAll`, which is `list(map(f, xs))`), with their
  laws over concatenation.
- `Text`: Python's `str.strip()` with no argument and `str.split(sep)` for a one-character `sep`, with
  the exact `str.isspace` character set.
- `Preprocess`: `preprocess_lines`, applied to one line or to a whole batch.
- `Batching`: the `list(islice(inf, batch_size))` rounds, as a function from
  the input lines to the sequence of batches.
- `Naming`: `infer_outfile_name_from_args`, which gives the hyperparameter
  file name, a parser that inverts it, and the output path as its components.
- `Driver`: the loop of `main`, as a method `RunBatches` with loop
  invariants, and a pure reference description it is proved against. The
  predictor `predict_simplicity` is a function parameter. The loaded models,
  tokenizer, dataset metadata and arguments it also receives are fixed for the
  run, so they are folded into that parameter.

Some behaviour of the code goes beyond its intended use, and the model
follows the code:

- A positive batch size is the intended use, but the code takes any integer:
  - With 0, the first `islice` is empty, so the loop ends at once and
    nothing is written.
  - Below 0 or above `sys.maxsize`, `islice` raises `ValueError`.
- Source extraction is idempotent on lines with no tab, and the model proves
  it. It is not idempotent in general: `"a \tb"` gives `"a "`, and a second
  pass gives `"a"`.
- Nothing in the code makes the output hold one line per input line. The
  model proves it for a run that completes with a batch size between 1 and
  `sys.maxsize` and with `num_return_sequences` equal to 1, a predictor that
  returns one text per input, and no text that contains a newline.

## Model

| member | source | states |
|---|---|---|
| Text.Strip | evaluate_simplify.py:48 | `line.strip()` removes a run of Python whitespace from each end and keeps the core, whose ends are not whitespace |
| Text.StripUnique | evaluate_simplify.py:48 | any split of a string into leading whitespace, a core with non-whitespace ends and trailing whitespace yields exactly `strip()`'s result |
| Text.StripIdempotent | evaluate_simplify.py:48 | stripping twice is stripping once |
| Text.Split | evaluate_simplify.py:48 | `split('\t')` gives at least one field, no field contains the separator, and re-joining the fields gives back the string |
| Text.SplitJoin | evaluate_simplify.py:48 | splitting undoes joining when no field contains the separator |
| Text.SplitHead | evaluate_simplify.py:48-49 | the first field is a prefix of the string, and is the whole string exactly when the separator does not occur in it |
| Preprocess.PreprocessLine | evaluate_simplify.py:39-49 | the source field is the longest tab-free prefix of the stripped line: it contains no tab, and either it is the whole stripped line, which happens exactly when that line has no tab, or a tab follows it |
| Preprocess.FirstFieldKept | evaluate_simplify.py:48-49 | a line `src + TAB + more` that begins and ends with non-whitespace yields exactly `src`, including any whitespace at the end of `src` |
| Preprocess.PreprocessAll | evaluate_simplify.py:118 | `list(map(preprocess_lines, batch_lines))` gives one source per line of the batch, and the source at each position is `preprocess_lines` of the line at that position |
| Preprocess.PreprocessAllAppend | evaluate_simplify.py:118 | preprocessing a batch works line by line, so it commutes with concatenating batches |
| Preprocess.PreprocessTwice | evaluate_simplify.py:48-49 | preprocessing a second time only strips the first result again |
| Preprocess.PreprocessSingleField | evaluate_simplify.py:48-49 | on a line whose stripped text has no tab, the source is the stripped line, and a second pass changes nothing |
| Preprocess.PreprocessNotIdempotent | evaluate_simplify.py:48-49 | `"a \tb"` becomes `"a "` and then `"a"`: preprocessing is not idempotent in general |
| Batching.Batches | evaluate_simplify.py:115-117 | the repeated `list(islice(inf, batch_size))` rounds give no batch exactly when the input is empty; `BatchesShape` and `BatchContents` state what each batch holds |
| Batching.BatchesShape | evaluate_simplify.py:114-117 | the batches read by the loop concatenate back to the whole input; each is non-empty with at most `batch_size` lines, and all but the last are full |
| Batching.BatchesCover | evaluate_simplify.py:114-117 | the number of rounds times `batch_size` lies in `[N, N + batch_size)` |
| Batching.BatchContents | evaluate_simplify.py:115 | batch `i` is exactly the lines from `i * batch_size` to `(i + 1) * batch_size`, cut off at the end of the file |
| Batching.BatchCount | evaluate_simplify.py:114-117 | the loop runs `ceil(N / batch_size)` rounds |
| Batching.LastBatchSize | evaluate_simplify.py:115 | the last round reads `N mod batch_size` lines, or `batch_size` lines when that remainder is 0 |
| Driver.PrepareBatches | evaluate_simplify.py:118 | each batch handed on is the preprocessed form of the raw batch at the same position |
| Driver.OutputsFlatten | evaluate_simplify.py:119-124 | the texts written over a run are the predictor's results for each batch, concatenated in batch order |
| Driver.WriteLines | evaluate_simplify.py:123-124 | writing a batch's results appends them to the file in order |
| Driver.FileText | evaluate_simplify.py:123-124 | the output file's contents are the written texts joined by newlines, with a newline after the last |
| Driver.RoundStep | evaluate_simplify.py:114-126 | one round of reading, preprocessing, predicting, writing and progress update keeps the loop invariant |
| Driver.RunBatches | evaluate_simplify.py:109-126 | a batch size below 0 or above `sys.maxsize` gives `ValueError`, and 0 gives an empty run; on non-empty input, a failing `num_return_sequences` check stops after the first predictor call with nothing written; otherwise the predictor sees the preprocessed batches in order, their results are written in order, `generated_texts` counts the written lines, and the progress count is rounds times batch size, in `[N, N + batch_size)` |
| Driver.OrderPreserved | evaluate_simplify.py:114-119 | over all rounds, the predictor sees every input line exactly once, preprocessed, in file order, for every positive batch size |
| Driver.OneLinePerInput | evaluate_simplify.py:119-124 | if the predictor returns one text per input, a completed run with a positive batch size writes exactly N texts |
| Driver.BatchSizeIrrelevant | evaluate_simplify.py:114-124 | with a predictor that maps each line on its own by `f`, the written texts are `f` of every input line's source field, in file order, the same for every positive batch size |
| Driver.FileLines | evaluate_simplify.py:123-124 | when no text contains a newline, splitting the file on newlines gives back exactly the written texts, then the empty piece after the final newline |
| Driver.ThreeLineExample | evaluate_simplify.py:114-124 | three lines `a\tb`, `c\td\te`, `f` with batch size 2 reach the predictor as `["a","c"]` and then `["f"]`, and the file becomes `A\nC\nF\n` |
| Driver.Evaluate | evaluate_simplify.py:107-126 | the output path is the one `infer_outfile_name_from_args` builds from the output root, the generation model, the test set and the hyperparameters, named before anything is read; a generation-model path with no parts fails at once; otherwise the file name reads back into the hyperparameters, and for every batch size the status, predictor inputs, written texts, `generated_texts` and progress count are those `RunBatches` gives |
| Naming.Filename | evaluate_simplify.py:54-71 | the file name starts with `lambda` and ends with `.txt` |
| Naming.FilenameTokens | evaluate_simplify.py:54-71 | splitting the name before `.txt` on `_` gives the 16 `key + value` tokens in the fixed key order |
| Naming.ParseFilenameRoundTrip | evaluate_simplify.py:54-71 | parsing the file name gives back the hyperparameters it was built from, when no value contains `_` |
| Naming.FilenameInjective | evaluate_simplify.py:54-71 | two configurations whose values contain no `_` share a file name if and only if they are equal |
| Naming.OneChangeChangesFilename | evaluate_simplify.py:54-71 | changing any single hyperparameter changes the file name, whatever the values contain |
| Naming.FilenameAmbiguous | evaluate_simplify.py:54-71 | values containing `_` can collide: two different configurations with the same file name exist |
| Naming.PathParts | evaluate_simplify.py:74 | `Path(p).parts` has no empty or `.` parts and no `/` after the root, and begins with the root `/` exactly when `p` is absolute |
| Naming.PathPartsOfRelative | evaluate_simplify.py:74 | a relative path written as named components joined by `/` has exactly those components as its parts; its last part and its name are the last component |
| Naming.PathPartsOfAbsolute | evaluate_simplify.py:74 | the same path with a leading `/` has the root `/` and then those components as its parts; its last part and its name are the last component |
| Naming.PathName | evaluate_simplify.py:74 | `Path(infile).name` holds no `/`; `PathPartsOfRelative` and `PathPartsOfAbsolute` state that it is the last component |
| Naming.Stem | evaluate_simplify.py:74 | `Path(infile).stem` is a prefix of the name: either the whole name, or the name cut just before a `.` that has no `.` after it and is neither its first nor its last character |
| Naming.StemSuffixRule | evaluate_simplify.py:74 | the stem differs from the name if and only if the name's last `.` is neither its first nor its last character, and then the stem is the name cut just before that `.` |
| Naming.LastPart | evaluate_simplify.py:74 | `Path(generation_model).parts[-1]` fails exactly when the path has no parts, and otherwise is a non-empty part; `PathPartsOfRelative` and `PathPartsOfAbsolute` state that it is the last component |
| Naming.OutfilePath | evaluate_simplify.py:74 | the output path fails exactly when the generation-model path has no parts; otherwise its file name reads back into the hyperparameters |
| Naming.OutfilePathOfNamed | evaluate_simplify.py:73-74 | with a generation model written as named components, the output path is the output root, then the model's last component, then the input file's stem, then the hyperparameter file name, in that order |
| Naming.OutfilePathExample | evaluate_simplify.py:73-74 | output root `res`, model `m/bart` and test set `d/turk.tsv` give `res/bart/turk/<file name>` |
| Naming.OutfilePathOneChange | evaluate_simplify.py:54-74 | two runs differing in one hyperparameter write to different paths |
| Naming.OutfilePathCollision | evaluate_simplify.py:54-74 | two runs whose values contain no `_` write to the same path if and only if they agree on the output root, the model directory, the test-set stem and every hyperparameter |

## Left out

- Loading the dataset metadata with `pickle` (lines 86-87), the tokenizer, the generator and the conditioning model (lines 90-100), and the verbose report (lines 102-105): these are I/O and library calls. Their results only reach the predictor, which is a parameter.
- `predict_simplicity` (line 119) is not part of this model. It is an uninterpreted total function from a batch of sources to a sequence of texts. Exceptions raised inside it, and its dependence on random sampling, are not modelled.
- `quick_lc` (lines 32-37) and the `tqdm` bar (line 111): only the bar's count is modelled, as `progress`. Its rendering and its total are not.
- Timing and the final report (lines 110, 128-130): clock readings and printing.
- Seeding and argument parsing (lines 132-146): the arguments are taken as an already parsed `Args` value.
- Creating the output directory and the overwrite warning (lines 76-79): file-system effects. A failing `mkdir` is not modelled.
- Opening the files (lines 112-113), UTF-8 decoding and universal newlines: the input is given as its sequence of lines, and the output file as the sequence of texts written to it plus `FileText` for its contents.
- Naming.Hyperparams: each value is the text Python's f-string renders from it. Rendering floats and bools is not modelled.
- Driver.Args: `numReturnSequences` appears both as a rendered value in the hyperparameters and as an integer. The model does not require the two to agree.
- Naming.PathParts: it models only POSIX paths. The special `//` root, absolute-component resets when joining with `/`, and the collapse of a directory level when the stem is empty are not modelled. The output path is kept as its four components.
- Naming.Stem: it follows the suffix rule of pathlib as described at its entry. Version-specific variations of that rule are not modelled.
- Driver.RunBatches: treats the `assert` at line 121 as always active. Under `python -O` it is removed, and a run with `num_return_sequences != 1` then goes on and writes every batch's results. `MaxSize` is `sys.maxsize` of a 64-bit interpreter.
- Driver.OneLinePerInput: the one-output-per-input property holds only for a predictor that keeps lengths, so it is stated under that hypothesis.

=== FILE: Batching.dfy ===
/**
 Chunked reading of the input file: `list(islice(inf, batch_size))` taken
 repeatedly until it comes back empty. The file is a sequence of lines.
 */
module Batching {
  import opened Seqs

  /** `sys.maxsize` on a 64-bit interpreter: the largest stop value `islice`
      accepts; anything above it, like a negative stop, raises `ValueError`. */
  const MaxSize: int := 0x7FFF_FFFF_FFFF_FFFF

  /** The batches the driver's loop handles, in the order it handles them:
      each round takes the next `size` lines, or all that are left if fewer. */
  function Batches<T>(xs: seq<T>, size: nat): (bs: seq<seq<T>>)
    requires size > 0
    ensures |bs| == 0 <==> |xs| == 0
    decreases |xs|
  {
    if |xs| == 0 then []
    else
      var n := if |xs| < size then |xs| else size;
      [xs[..n]] + Batches(xs[n..], size)
  }

  /** Concatenated, the batches give back the input; every batch is
      non-empty and at most `size` long, and only the last may be short. */
  lemma {:induction false} BatchesShape<T>(xs: seq<T>, size: nat)
    requires size > 0
    ensures var bs := Batches(xs, size);
      && Flatten(bs) == xs
      && (forall i :: 0 <= i < |bs| ==> 0 < |bs[i]| <= size)
      && (forall i :: 0 <= i < |bs| - 1 ==> |bs[i]| == size)
    decreases |xs|
  {
    if |xs| > 0 {
      var n := if |xs| < size then |xs| else size;
      var bs := Batches(xs, size);
      BatchesShape(xs[n..], size);
      assert bs[0] == xs[..n] && bs[1..] == Batches(xs[n..], size);
      assert xs[..n] + xs[n..] == xs;
    }
  }

  /** The number of batches times `size` lies in `[|xs|, |xs| + size)`. */
  lemma {:induction false} BatchesCover<T>(xs: seq<T>, size: nat)
    requires size > 0
    ensures |xs| <= |Batches(xs, size)| * size < |xs| + size
    decreases |xs|
  {
    if |xs| > 0 {
      var n := if |xs| < size then |xs| else size;
      BatchesStep(xs, size);
      BatchesCover(xs[n..], size);
      MulPred(|Batches(xs, size)|, size);
    }
  }

  /** One round of the loop: the first batch is the next `size` lines (or all
      that remain), and the later batches are those of what follows it. */
  lemma BatchesStep<T>(xs: seq<T>, size: nat)
    requires size > 0 && |xs| > 0
    ensures var n := if |xs| < size then |xs| else size;
      Batches(xs, size) == [xs[..n]] + Batches(xs[n..], size)
  {
  }

  /** Independent description of the batches by position: batch `i` holds
      the lines from `i * size` up to `i * size + size`, cut off at the end of
      the file. */
  lemma {:induction false} BatchContents<T>(xs: seq<T>, size: nat, i: nat)
    requires size > 0 && i < |Batches(xs, size)|
    ensures var lo := i * size;
      lo < |xs| && Batches(xs, size)[i] == xs[lo..if lo + size < |xs| then lo + size else |xs|]
    decreases |xs|
  {
    var n := if |xs| < size then |xs| else size;
    BatchesStep(xs, size);
    if i > 0 {
      BatchesShape(xs, size);
      assert |Batches(xs, size)[0]| == size;
      ShiftedBatch(xs, size, i);
    }
  }

  /** The inductive step of `BatchContents`, with the arithmetic named. */
  lemma {:induction false} ShiftedBatch<T>(xs: seq<T>, size: nat, i: nat)
    requires size > 0 && 0 < i < |Batches(xs, size)| && size <= |xs|
    requires Batches(xs, size) == [xs[..size]] + Batches(xs[size..], size)
    ensures var lo := i * size;
      lo < |xs| && Batches(xs, size)[i] == xs[lo..if lo + size < |xs| then lo + size else |xs|]
    decreases |xs|, 0
  {
    var rest := xs[size..];
    BatchContents(rest, size, i - 1);
    var lo' := (i - 1) * size;
    var hi' := if lo' + size < |rest| then lo' + size else |rest|;
    MulPred(i, size);
    SliceOfSuffix(xs, size, lo', hi');
  }

  lemma MulPred(i: int, size: int)
    ensures i * size == (i - 1) * size + size
  {
  }

  lemma SliceOfSuffix<T>(xs: seq<T>, k: nat, lo: nat, hi: nat)
    requires k <= |xs| && lo <= hi <= |xs| - k
    ensures xs[k..][lo..hi] == xs[lo + k..hi + k]
  {
  }

  lemma MulAtLeast(d: int, b: int)
    requires d >= 1 && b > 0
    ensures d * b >= b
  {
    assert d * b == (d - 1) * b + b;
  }

  /** Division with remainder has one answer (Dafny's `/` and `%` on naturals). */
  lemma DivModUnique(a: nat, b: nat, q: int, r: int)
    requires b > 0 && 0 <= r < b && a == q * b + r
    ensures a / b == q && a % b == r
  {
    var q', r' := a / b, a % b;
    assert (q - q') * b == r' - r;
    if q > q' {
      MulAtLeast(q - q', b);
    } else if q' > q {
      MulAtLeast(q' - q, b);
    }
  }

  /** The loop runs ceil(N / B) rounds. */
  lemma {:induction false} BatchCount<T>(xs: seq<T>, size: nat)
    requires size > 0
    ensures |Batches(xs, size)| == (|xs| + size - 1) / size
  {
    var k := |Batches(xs, size)|;
    BatchesCover(xs, size);
    DivModUnique(|xs| + size - 1, size, k, |xs| + size - 1 - k * size);
  }

  /** Total length of the batches. */
  lemma {:induction false} FlattenLength<T>(bs: seq<seq<T>>)
    requires |bs| > 0
    ensures |Flatten(bs)| == |Flatten(bs[..|bs| - 1])| + |bs[|bs| - 1]|
  {
    assert bs == bs[..|bs| - 1] + [bs[|bs| - 1]];
    FlattenAppend(bs[..|bs| - 1], [bs[|bs| - 1]]);
    assert Flatten([bs[|bs| - 1]]) == bs[|bs| - 1] + Flatten([]);
  }

  /** Every batch before the last is full, so together they hold `size`
      lines per batch. */
  lemma {:induction false} FullBatchesLength<T>(bs: seq<seq<T>>, size: nat)
    requires forall i :: 0 <= i < |bs| ==> |bs[i]| == size
    ensures |Flatten(bs)| == |bs| * size
    decreases |bs|
  {
    if |bs| > 0 {
      FullBatchesLength(bs[1..], size);
      assert |bs| * size == size + (|bs| - 1) * size;
    }
  }

  /** The last round takes N mod B lines, or B lines when B divides N. */
  lemma {:induction false} LastBatchSize<T>(xs: seq<T>, size: nat)
    requires size > 0 && |xs| > 0
    ensures var bs := Batches(xs, size);
      |bs[|bs| - 1]| == if |xs| % size == 0 then size else |xs| % size
  {
    var bs := Batches(xs, size);
    var k := |bs|;
    var last := |bs[k - 1]|;
    BatchesShape(xs, size);
    BatchesCover(xs, size);
    FlattenLength(bs);
    FullBatchesLength(bs[..k - 1], size);
    assert |xs| == (k - 1) * size + last;
    if last < size {
      DivModUnique(|xs|, size, k - 1, last);
    } else {
      assert |xs| == k * size + 0;
      DivModUnique(|xs|, size, k, 0);
    }
  }
}

=== FILE: Driver.dfy ===
/**
 The batch driver of `main`: read the input in rounds of `batch_size` lines,
 keep each line's source field, hand the batch to the predictor and append
 every returned text to the output file as one line. The predictor stands for
 `predict_simplicity` with the loaded models, tokenizer, dataset metadata and
 arguments, which are all fixed for the run.
 */
module Driver {
  import opened Wrappers
  import opened Text
  import opened Preprocess
  import opened Seqs
  import opened Batching
  import opened Naming

  /** How a run ends. `IsliceError` is the `ValueError` `islice` raises for a
      batch size below 0 or above `MaxSize`; `AssertionError` is the failed
      `num_return_sequences == 1` check; `NoModelName` is the `IndexError` of
      `parts[-1]` on a generation-model path without parts. */
  datatype Status = Completed | IsliceError | AssertionError | NoModelName

  /** What a run leaves behind: the batches handed to the predictor, the texts
      written to the output file (one line each), `generated_texts`, and the
      progress bar's count. */
  datatype Run = Run(
    status: Status,
    predictInputs: seq<seq<string>>,
    written: seq<string>,
    generated: int,
    progress: int)

  /** The preprocessed form of every batch, in order. */
  function PrepareBatches(bs: seq<seq<string>>): (inputs: seq<seq<string>>)
    ensures |inputs| == |bs|
    ensures forall i :: 0 <= i < |bs| ==> inputs[i] == PreprocessAll(bs[i])
  {
    if |bs| == 0 then [] else PrepareBatches(bs[..|bs| - 1]) + [PreprocessAll(bs[|bs| - 1])]
  }

  /** The predictor's results for the batches, concatenated in batch order. */
  function Outputs(inputs: seq<seq<string>>, predict: seq<string> -> seq<string>): (texts: seq<string>)
  {
    if |inputs| == 0 then [] else Outputs(inputs[..|inputs| - 1], predict) + predict(inputs[|inputs| - 1])
  }

  /** The output file's contents, `f'{text}\n'` for each text in turn: the
      texts joined by newlines, with a newline after the last. */
  function FileText(written: seq<string>): (text: string)
    ensures text == Join(written + [""], '\n')
  {
    if |written| == 0 then ""
    else
      assert (written + [""])[1..] == written[1..] + [""];
      written[0] + "\n" + FileText(written[1..])
  }

  /** The batches the predictor sees of a successful run, from the input lines. */
  function PredictInputs(lines: seq<string>, batchSize: nat): (inputs: seq<seq<string>>)
    requires batchSize > 0
  {
    PrepareBatches(Batches(lines, batchSize))
  }

  /** The texts of a run are the predictor's results for each batch,
      concatenated in batch order. */
  lemma {:induction false} OutputsFlatten(inputs: seq<seq<string>>, predict: seq<string> -> seq<string>)
    ensures Outputs(inputs, predict) == Flatten(MapAll(predict, inputs))
    decreases |inputs|
  {
    if |inputs| > 0 {
      var init, last := inputs[..|inputs| - 1], inputs[|inputs| - 1];
      assert inputs == init + [last];
      OutputsFlatten(init, predict);
      MapAllAppend(predict, init, [last]);
      MapAllOne(predict, last);
      FlattenAppend(MapAll(predict, init), [predict(last)]);
      assert Flatten([predict(last)]) == predict(last) + Flatten([]);
    }
  }

  lemma OutputsAppend(inputs: seq<seq<string>>, batch: seq<string>, predict: seq<string> -> seq<string>)
    ensures Outputs(inputs + [batch], predict) == Outputs(inputs, predict) + predict(batch)
  {
    assert (inputs + [batch])[..|inputs|] == inputs;
  }

  lemma PrepareBatchesAppend(done: seq<seq<string>>, batch: seq<string>)
    ensures PrepareBatches(done + [batch]) == PrepareBatches(done) + [PreprocessAll(batch)]
  {
    assert (done + [batch])[..|done|] == done;
  }

  /** `for text in batch_results: outf.write(f'{text}\n')`: appends the
      texts, in order, to the lines already written. */
  method WriteLines(file: seq<string>, texts: seq<string>) returns (file': seq<string>)
    ensures file' == file + texts
  {
    file' := file;
    var j := 0;
    while j < |texts|
      invariant 0 <= j <= |texts|
      invariant file' == file + texts[..j]
    {
      file' := file' + [texts[j]];
      j := j + 1;
    }
    assert texts[..j] == texts;
  }

  /** The loop invariant: `done` are the raw batches read so far and `rest`
      the lines the file iterator has still to deliver; the predictor has seen
      the batches preprocessed, their results are in the file in order, and
      the counters agree. */
  ghost predicate Streamed(lines: seq<string>, batchSize: nat, rest: seq<string>, done: seq<seq<string>>,
                           inputs: seq<seq<string>>, written: seq<string>, generated: int, progress: int,
                           predict: seq<string> -> seq<string>)
  {
    && (batchSize == 0 ==> rest == lines && done == [])
    && (batchSize > 0 ==> Batches(lines, batchSize) == done + Batches(rest, batchSize))
    && inputs == PrepareBatches(done)
    && written == Outputs(inputs, predict)
    && generated == |written|
    && progress == |done| * batchSize
  }

  /** One more round of the loop keeps the invariant. */
  lemma RoundStep(lines: seq<string>, batchSize: nat, rest: seq<string>, done: seq<seq<string>>,
                  inputs: seq<seq<string>>, written: seq<string>, generated: int, progress: int,
                  predict: seq<string> -> seq<string>, n: nat)
    requires Streamed(lines, batchSize, rest, done, inputs, written, generated, progress, predict)
    requires n == if |rest| < batchSize then |rest| else batchSize
    requires n > 0
    ensures var batch := rest[..n];
      var results := predict(PreprocessAll(batch));
      Streamed(lines, batchSize, rest[n..], done + [batch], inputs + [PreprocessAll(batch)],
               written + results, generated + |results|, progress + batchSize, predict)
  {
    var batch := rest[..n];
    BatchesStep(rest, batchSize);
    AppendAssoc(done, [batch], Batches(rest[n..], batchSize));
    PrepareBatchesAppend(done, batch);
    OutputsAppend(inputs, PreprocessAll(batch), predict);
    MulPred(|done| + 1, batchSize);
  }

  /** The first round hands the predictor the first `batchSize` lines (or all
      of them if fewer), preprocessed. */
  lemma FirstRound(lines: seq<string>, batchSize: nat)
    requires batchSize > 0 && |lines| > 0
    ensures var n := if |lines| < batchSize then |lines| else batchSize;
      PredictInputs(lines, batchSize)[0] == PreprocessAll(lines[..n])
  {
    BatchesStep(lines, batchSize);
  }

  /** Once the input is used up, the rounds done are all the batches, and the
      run's record is the one a completed run promises. */
  lemma Completes(lines: seq<string>, batchSize: nat, rest: seq<string>, done: seq<seq<string>>,
                  inputs: seq<seq<string>>, written: seq<string>, generated: int, progress: int,
                  predict: seq<string> -> seq<string>)
    requires batchSize > 0 && |rest| == 0
    requires Streamed(lines, batchSize, rest, done, inputs, written, generated, progress, predict)
    ensures inputs == PredictInputs(lines, batchSize)
    ensures |inputs| == (|lines| + batchSize - 1) / batchSize
    ensures written == Outputs(inputs, predict)
    ensures generated == |written|
    ensures progress == |inputs| * batchSize
    ensures |lines| <= progress < |lines| + batchSize
  {
    assert rest == [];
    assert done + [] == done;
    BatchesCover(lines, batchSize);
    BatchCount(lines, batchSize);
  }

  /** With a batch size of 0 nothing is read, predicted or written. */
  lemma NothingRead(lines: seq<string>, rest: seq<string>, done: seq<seq<string>>,
                    inputs: seq<seq<string>>, written: seq<string>, generated: int, progress: int,
                    predict: seq<string> -> seq<string>)
    requires Streamed(lines, 0, rest, done, inputs, written, generated, progress, predict)
    ensures inputs == [] && written == [] && generated == 0 && progress == 0
  {
  }

  /** The driver loop. It stops on the first empty batch, so a batch size of 0
      ends the run at once with nothing written, and one below 0 or above
      `MaxSize` makes `islice` raise before anything is read. When the assertion on
      `numReturnSequences` fails, it does so after the first predictor call and
      before any line is written. Otherwise the predictor sees the
      preprocessed batches in input order, the file receives their results in
      the same order, `generated` counts the lines written, and the progress
      bar advances by the nominal batch size each round, ending between N and
      N + batch size. */
  method RunBatches(lines: seq<string>, batchSize: int, numReturnSequences: int,
                    predict: seq<string> -> seq<string>) returns (r: Run)
    ensures batchSize < 0 || batchSize > MaxSize ==> r == Run(IsliceError, [], [], 0, 0)
    ensures batchSize == 0 ==> r == Run(Completed, [], [], 0, 0)
    ensures 0 < batchSize <= MaxSize && (numReturnSequences == 1 || |lines| == 0) ==>
      && r.status == Completed
      && r.predictInputs == PredictInputs(lines, batchSize)
      && |r.predictInputs| == (|lines| + batchSize - 1) / batchSize
      && r.written == Outputs(r.predictInputs, predict)
      && r.generated == |r.written|
      && r.progress == |r.predictInputs| * batchSize
      && |lines| <= r.progress < |lines| + batchSize
    ensures 0 < batchSize <= MaxSize && numReturnSequences != 1 && |lines| > 0 ==>
      && r.status == AssertionError
      && r.predictInputs == [PredictInputs(lines, batchSize)[0]]
      && r.written == [] && r.generated == 0 && r.progress == 0
  {
    if batchSize < 0 || batchSize > MaxSize {
      return Run(IsliceError, [], [], 0, 0);
    }
    var rest := lines;
    var inputs: seq<seq<string>> := [];
    var written: seq<string> := [];
    var generated := 0;
    var progress := 0;
    ghost var done: seq<seq<string>> := [];
    while true
      invariant Streamed(lines, batchSize, rest, done, inputs, written, generated, progress, predict)
      invariant numReturnSequences != 1 ==> rest == lines && written == [] && generated == 0 && progress == 0
      decreases |rest|
    {
      var n := if |rest| < batchSize then |rest| else batchSize;
      var batch := rest[..n];
      if |batch| == 0 {
        break;
      }
      var sources := PreprocessAll(batch);
      var results := predict(sources);
      if numReturnSequences != 1 {
        FirstRound(lines, batchSize);
        return Run(AssertionError, [sources], written, generated, progress);
      }
      RoundStep(lines, batchSize, rest, done, inputs, written, generated, progress, predict, n);
      generated := generated + |results|;
      written := WriteLines(written, results);
      progress := progress + batchSize;
      inputs := inputs + [sources];
      done := done + [batch];
      rest := rest[n..];
    }
    if batchSize > 0 {
      Completes(lines, batchSize, rest, done, inputs, written, generated, progress, predict);
    } else {
      NothingRead(lines, rest, done, inputs, written, generated, progress, predict);
    }
    return Run(Completed, inputs, written, generated, progress);
  }

  /** Preprocessing a run's batches one by one and concatenating the results
      is preprocessing the concatenated batches. */
  lemma {:induction false} FlattenPrepare(bs: seq<seq<string>>)
    ensures Flatten(PrepareBatches(bs)) == PreprocessAll(Flatten(bs))
    decreases |bs|
  {
    if |bs| > 0 {
      var init, last := bs[..|bs| - 1], bs[|bs| - 1];
      assert bs == init + [last];
      FlattenPrepare(init);
      FlattenAppend(PrepareBatches(init), [PreprocessAll(last)]);
      FlattenAppend(init, [last]);
      assert Flatten([PreprocessAll(last)]) == PreprocessAll(last) + Flatten([]);
      assert Flatten([last]) == last + Flatten([]);
      PreprocessAllAppend(Flatten(init), last);
    }
  }

  /** Order preservation: the predictor sees every input line exactly once,
      preprocessed, in file order, whatever the batch size. */
  lemma {:induction false} OrderPreserved(lines: seq<string>, batchSize: nat)
    requires batchSize > 0
    ensures Flatten(PredictInputs(lines, batchSize)) == PreprocessAll(lines)
  {
    BatchesShape(lines, batchSize);
    FlattenPrepare(Batches(lines, batchSize));
  }

  /** A predictor that keeps lengths yields as many texts as it was given lines. */
  lemma {:induction false} OutputsLength(inputs: seq<seq<string>>, predict: seq<string> -> seq<string>)
    requires forall batch :: |predict(batch)| == |batch|
    ensures |Outputs(inputs, predict)| == |Flatten(inputs)|
    decreases |inputs|
  {
    if |inputs| > 0 {
      var init, last := inputs[..|inputs| - 1], inputs[|inputs| - 1];
      assert inputs == init + [last];
      OutputsLength(init, predict);
      FlattenAppend(init, [last]);
      assert Flatten([last]) == last + Flatten([]);
    }
  }

  /** When the predictor returns one text per line it is given (the driver
      never checks this), a completed run writes exactly N lines. */
  lemma OneLinePerInput(lines: seq<string>, batchSize: nat, predict: seq<string> -> seq<string>)
    requires batchSize > 0
    requires forall batch :: |predict(batch)| == |batch|
    ensures |Outputs(PredictInputs(lines, batchSize), predict)| == |lines|
  {
    OrderPreserved(lines, batchSize);
    OutputsLength(PredictInputs(lines, batchSize), predict);
  }

  lemma {:induction false} OutputsPointwise(inputs: seq<seq<string>>, predict: seq<string> -> seq<string>,
                                            f: string -> string)
    requires forall batch :: predict(batch) == MapAll(f, batch)
    ensures Outputs(inputs, predict) == MapAll(f, Flatten(inputs))
    decreases |inputs|
  {
    if |inputs| > 0 {
      var init, last := inputs[..|inputs| - 1], inputs[|inputs| - 1];
      assert inputs == init + [last];
      OutputsPointwise(init, predict, f);
      FlattenAppend(init, [last]);
      assert Flatten([last]) == last + Flatten([]);
    }
  }

  /** With a line-by-line predictor the output file holds, line for line, the
      prediction for each input line's source field, and the batch size makes
      no difference to it. */
  lemma {:induction false} BatchSizeIrrelevant(lines: seq<string>, batchSize: nat,
                                               predict: seq<string> -> seq<string>, f: string -> string)
    requires batchSize > 0
    requires forall batch :: predict(batch) == MapAll(f, batch)
    ensures Outputs(PredictInputs(lines, batchSize), predict) == MapAll(f, PreprocessAll(lines))
  {
    OrderPreserved(lines, batchSize);
    OutputsPointwise(PredictInputs(lines, batchSize), predict, f);
  }

  /** When no text holds a newline, reading the file back line by line gives
      exactly the written texts (and the empty remainder after the final
      newline). */
  lemma {:induction false} FileLines(written: seq<string>)
    requires forall i :: 0 <= i < |written| ==> '\n' !in written[i]
    ensures Split(FileText(written), '\n') == written + [""]
  {
    SplitJoin(written + [""], '\n');
  }

  /** A three-line example with batch size 2: the predictor sees
      ["a", "c"] and then ["f"], and the file ends up as "A\nC\nF\n". */
  lemma ThreeLineExample(predict: seq<string> -> seq<string>)
    requires predict(["a", "c"]) == ["A", "C"] && predict(["f"]) == ["F"]
    ensures PredictInputs(["a\tb", "c\td\te", "f"], 2) == [["a", "c"], ["f"]]
    ensures FileText(Outputs([["a", "c"], ["f"]], predict)) == "A\nC\nF\n"
  {
    ExampleInputs();
    ExampleFile(predict);
  }

  lemma ExampleInputs()
    ensures PredictInputs(["a\tb", "c\td\te", "f"], 2) == [["a", "c"], ["f"]]
  {
    var lines := ["a\tb", "c\td\te", "f"];
    ExampleBatches(lines);
    assert lines[..2] == ["a\tb", "c\td\te"] && lines[2..] == ["f"];
    ExampleFirstBatch();
    ExampleSecondBatch();
  }

  lemma ExampleFile(predict: seq<string> -> seq<string>)
    requires predict(["a", "c"]) == ["A", "C"] && predict(["f"]) == ["F"]
    ensures FileText(Outputs([["a", "c"], ["f"]], predict)) == "A\nC\nF\n"
  {
    var inputs := [["a", "c"], ["f"]];
    assert inputs[..1] == [["a", "c"]] && inputs[..1][..0] == [];
    assert Outputs(inputs, predict) == ["A", "C"] + ["F"];
    assert ["A", "C"] + ["F"] == ["A", "C", "F"];
    var texts := ["A", "C", "F"];
    assert texts[1..] == ["C", "F"] && texts[1..][1..] == ["F"] && texts[1..][1..][1..] == [];
    assert FileText(["F"]) == "F\n";
    assert FileText(["C", "F"]) == "C\nF\n";
  }

  lemma ExampleBatches(lines: seq<string>)
    requires |lines| == 3
    ensures Batches(lines, 2) == [lines[..2], lines[2..]]
  {
    BatchesStep(lines, 2);
    BatchesStep(lines[2..], 2);
    assert lines[2..][..1] == lines[2..] && lines[2..][1..] == [];
  }

  lemma ExampleFirstBatch()
    ensures PreprocessAll(["a\tb", "c\td\te"]) == ["a", "c"]
  {
    ExampleFirstLine();
    ExampleSecondLine();
    MapAllPair(PreprocessLine, "a\tb", "c\td\te");
  }

  lemma ExampleSecondBatch()
    ensures PreprocessAll(["f"]) == ["f"]
  {
    ExampleLastLine();
    MapAllOne(PreprocessLine, "f");
  }

  lemma ExampleFirstLine()
    ensures PreprocessLine("a\tb") == "a"
  {
    FirstFieldKept("a", "b");
    assert "a" + [Tab] + "b" == "a\tb";
  }

  lemma ExampleSecondLine()
    ensures PreprocessLine("c\td\te") == "c"
  {
    FirstFieldKept("c", "d\te");
    assert "c" + [Tab] + "d\te" == "c\td\te";
  }

  lemma ExampleLastLine()
    ensures PreprocessLine("f") == "f"
  {
    StripOfTrimmed("f");
    SplitField("f", Tab);
  }

  /** The command-line arguments the driver reads. */
  datatype Args = Args(
    hyper: Hyperparams,
    numReturnSequences: int,
    batchSize: int,
    outpath: string,
    generationModel: string,
    infile: string)

  /** `main` once the models are loaded: name the output file, then stream the
      input through the predictor. The output path is `OutfilePath` of the
      arguments. A generation-model path without parts fails before any batch
      is read; otherwise the run is that of `RunBatches`, and the file name can
      be read back into the hyperparameters. */
  method Evaluate(args: Args, lines: seq<string>, predict: seq<string> -> seq<string>)
    returns (outfile: Option<OutPath>, r: Run)
    ensures outfile == OutfilePath(args.outpath, args.generationModel, args.infile, args.hyper)
    ensures outfile.None? <==> |PathParts(args.generationModel)| == 0
    ensures outfile.None? ==> r == Run(NoModelName, [], [], 0, 0)
    ensures outfile.Some? && Separable(args.hyper) ==> ParseFilename(outfile.value.filename) == Some(args.hyper)
    ensures outfile.Some? && (args.batchSize < 0 || args.batchSize > MaxSize) ==>
      r == Run(IsliceError, [], [], 0, 0)
    ensures outfile.Some? && args.batchSize == 0 ==> r == Run(Completed, [], [], 0, 0)
    ensures outfile.Some? && 0 < args.batchSize <= MaxSize && (args.numReturnSequences == 1 || |lines| == 0) ==>
      && r.status == Completed
      && r.predictInputs == PredictInputs(lines, args.batchSize)
      && r.written == Outputs(r.predictInputs, predict)
      && r.generated == |r.written|
      && r.progress == |r.predictInputs| * args.batchSize
      && |lines| <= r.progress < |lines| + args.batchSize
    ensures outfile.Some? && 0 < args.batchSize <= MaxSize && args.numReturnSequences != 1 && |lines| > 0 ==>
      && r.status == AssertionError
      && r.predictInputs == [PredictInputs(lines, args.batchSize)[0]]
      && r.written == [] && r.generated == 0 && r.progress == 0
  {
    outfile := OutfilePath(args.outpath, args.generationModel, args.infile, args.hyper);
    if outfile.None? {
      return outfile, Run(NoModelName, [], [], 0, 0);
    }
    r := RunBatches(lines, args.batchSize, args.numReturnSequences, predict);
  }
}

=== FILE: Naming.dfy ===
/**
 Output-artifact naming for experiment tracking: the file name spells out every
 decoding hyperparameter, and the directory is keyed on the generation model
 and the test set.
 */
module Naming {
  import opened Wrappers
  import opened Text

  /** The decoding hyperparameters that enter the file name, each already
      rendered to the text Python's f-string would give it. */
  datatype Hyperparams = Hyperparams(
    conditionLambda: string,
    preconditionTopk: string,
    numBeams: string,
    doEarlyStopping: string,
    maxLength: string,
    minLength: string,
    doSample: string,
    lengthPenalty: string,
    noRepeatNgramSize: string,
    numBeamGroups: string,
    numReturnSequences: string,
    repetitionPenalty: string,
    soft: string,
    temperature: string,
    topK: string,
    topP: string)

  /** The keys of the file name, in the order they are written. */
  const KeyNames: seq<string> := [
    "lambda", "pretopk", "beams", "estop", "maxl", "minl", "sample", "lp",
    "norep", "bgrps", "nbest", "repp", "soft", "temp", "topk", "topp"]

  const Sep: char := '_'
  const Extension: string := ".txt"

  /** The hyperparameter values in key order. */
  function Values(h: Hyperparams): (vs: seq<string>)
    ensures |vs| == |KeyNames|
  {
    [h.conditionLambda, h.preconditionTopk, h.numBeams, h.doEarlyStopping,
     h.maxLength, h.minLength, h.doSample, h.lengthPenalty,
     h.noRepeatNgramSize, h.numBeamGroups, h.numReturnSequences, h.repetitionPenalty,
     h.soft, h.temperature, h.topK, h.topP]
  }

  /** The hyperparameters whose values, in key order, are `vs`. */
  function FromValues(vs: seq<string>): (h: Hyperparams)
    requires |vs| == |KeyNames|
    ensures Values(h) == vs
  {
    Hyperparams(vs[0], vs[1], vs[2], vs[3], vs[4], vs[5], vs[6], vs[7],
                vs[8], vs[9], vs[10], vs[11], vs[12], vs[13], vs[14], vs[15])
  }

  /** The `key + value` token of each hyperparameter, in key order. */
  function Fields(h: Hyperparams): (fs: seq<string>)
  {
    seq(|KeyNames|, i requires 0 <= i < |KeyNames| => KeyNames[i] + Values(h)[i])
  }

  /** The file name: `lambda<v>`, then `_<key><v>` for each later key, then
      `.txt`; that is, the tokens joined by `_` with the extension after. */
  function Filename(h: Hyperparams): (name: string)
    ensures |name| >= |KeyNames[0]| + |Extension|
    ensures name[..|KeyNames[0]|] == "lambda"
    ensures name[|name| - |Extension|..] == ".txt"
  {
    var tokens := Join(Fields(h), Sep);
    JoinHead(Fields(h), Sep);
    assert tokens[..6] == Fields(h)[0][..6];
    tokens + Extension
  }

  /** No value holds the separator: true of every value Python renders from a
      number or a bool. */
  predicate Separable(h: Hyperparams) {
    forall i :: 0 <= i < |KeyNames| ==> Sep !in Values(h)[i]
  }

  /** Recovers the values from the part of a file name before `.txt`. */
  function ParseValues(stem: string): (r: Option<seq<string>>)
    ensures r.Some? ==> |r.value| == |KeyNames|
  {
    var fields := Split(stem, Sep);
    if |fields| == |KeyNames| && forall i :: 0 <= i < |KeyNames| ==> KeyNames[i] <= fields[i] then
      Some(seq(|KeyNames|, i requires 0 <= i < |KeyNames| => fields[i][|KeyNames[i]|..]))
    else
      None
  }

  /** Reads the hyperparameters back out of a file name (the inverse of
      `Filename` on separable hyperparameters). */
  function ParseFilename(name: string): (r: Option<Hyperparams>)
  {
    if |name| >= |Extension| && name[|name| - |Extension|..] == Extension then
      match ParseValues(name[..|name| - |Extension|])
      case Some(vs) => Some(FromValues(vs))
      case None => None
    else
      None
  }

  lemma KeysSeparable()
    ensures forall i :: 0 <= i < |KeyNames| ==> Sep !in KeyNames[i]
  {
  }

  /** The file name lists every key in its fixed order, each followed by its
      value: split on `_`, the part before `.txt` gives the 16 tokens back. */
  lemma FilenameTokens(h: Hyperparams)
    requires Separable(h)
    ensures var name := Filename(h);
      Split(name[..|name| - |Extension|], Sep) == Fields(h)
  {
    var name := Filename(h);
    var fs := Fields(h);
    assert name[..|name| - |Extension|] == Join(fs, Sep);
    KeysSeparable();
    forall i | 0 <= i < |fs|
      ensures Sep !in fs[i]
    {
      assert fs[i] == KeyNames[i] + Values(h)[i];
    }
    SplitJoin(fs, Sep);
  }

  /** Decoding a file name gives back the hyperparameters it was built from. */
  lemma ParseFilenameRoundTrip(h: Hyperparams)
    requires Separable(h)
    ensures ParseFilename(Filename(h)) == Some(h)
  {
    var name := Filename(h);
    FilenameTokens(h);
    var fs := Fields(h);
    assert forall i :: 0 <= i < |KeyNames| ==> KeyNames[i] <= fs[i] && fs[i][|KeyNames[i]|..] == Values(h)[i];
    var vs := seq(|KeyNames|, i requires 0 <= i < |KeyNames| => fs[i][|KeyNames[i]|..]);
    assert vs == Values(h);
    assert ParseValues(name[..|name| - |Extension|]) == Some(Values(h));
  }

  lemma RoundTripWhenSeparable(h: Hyperparams)
    ensures Separable(h) ==> ParseFilename(Filename(h)) == Some(h)
  {
    if Separable(h) {
      ParseFilenameRoundTrip(h);
    }
  }

  /** Distinct separable configurations never share a file name. */
  lemma FilenameInjective(h1: Hyperparams, h2: Hyperparams)
    requires Separable(h1) && Separable(h2)
    ensures Filename(h1) == Filename(h2) <==> h1 == h2
  {
    if Filename(h1) == Filename(h2) {
      ParseFilenameRoundTrip(h1);
      ParseFilenameRoundTrip(h2);
    }
  }

  /** `h1` and `h2` differ in exactly one hyperparameter, the `i`-th. */
  predicate DifferOnlyAt(h1: Hyperparams, h2: Hyperparams, i: int) {
    && 0 <= i < |KeyNames|
    && Values(h1)[i] != Values(h2)[i]
    && forall j :: 0 <= j < |KeyNames| && j != i ==> Values(h1)[j] == Values(h2)[j]
  }

  /** Changing any single hyperparameter changes the file name, whatever the
      values hold. */
  lemma OneChangeChangesFilename(h1: Hyperparams, h2: Hyperparams, i: int)
    requires DifferOnlyAt(h1, h2, i)
    ensures Filename(h1) != Filename(h2)
  {
    var fs, gs := Fields(h1), Fields(h2);
    AppendCancelLeft(KeyNames[i], Values(h1)[i], Values(h2)[i]);
    assert fs[i] != gs[i];
    JoinOneChange(fs, gs, Sep, i);
    AppendCancelRight(Join(fs, Sep), Join(gs, Sep), Extension);
  }

  /** Without `Separable` the name is ambiguous: a value holding `_<key>` can
      mimic the next token, so two configurations changed in two places can
      share a file name. */
  lemma FilenameAmbiguous()
    ensures exists h1: Hyperparams, h2: Hyperparams :: h1 != h2 && Filename(h1) == Filename(h2)
  {
    var h1 := Hyperparams("1" + [Sep] + KeyNames[1] + "2", "", "4", "False", "128", "10", "False", "1.0",
                          "1", "1", "1", "1.0", "False", "1.0", "0", "1.0");
    var h2 := h1.(conditionLambda := "1", preconditionTopk := "2" + [Sep] + KeyNames[1]);
    ShiftedValuesCollide(h1, h2, "1", "2");
    assert |h1.conditionLambda| != |h2.conditionLambda|;
  }

  /** `lambda` = y + "_pretopk" + t with an empty `pretopk` reads the same as
      `lambda` = y with `pretopk` = t + "_pretopk". */
  lemma ShiftedValuesCollide(h1: Hyperparams, h2: Hyperparams, y: string, t: string)
    requires h1.conditionLambda == y + [Sep] + KeyNames[1] + t && h1.preconditionTopk == ""
    requires h2 == h1.(conditionLambda := y, preconditionTopk := t + [Sep] + KeyNames[1])
    ensures Filename(h1) == Filename(h2)
  {
    var fs, gs := Fields(h1), Fields(h2);
    FieldsAfterSecond(h1, h2);
    FirstFields(h1);
    FirstFields(h2);
    ShiftedTokens(KeyNames[0], y, KeyNames[1], t, Sep);
    JoinFirstTwo(fs, Sep);
    JoinFirstTwo(gs, Sep);
  }

  /** The two token pairs of `ShiftedValuesCollide` spell the same text. */
  lemma ShiftedTokens(k0: string, y: string, k1: string, t: string, sep: char)
    ensures (k0 + (y + [sep] + k1 + t)) + [sep] + (k1 + "") == (k0 + y) + [sep] + (k1 + (t + [sep] + k1))
  {
    assert k1 + "" == k1;
  }

  lemma FirstFields(h: Hyperparams)
    ensures Fields(h)[0] == KeyNames[0] + h.conditionLambda
    ensures Fields(h)[1] == KeyNames[1] + h.preconditionTopk
  {
    assert Values(h)[0] == h.conditionLambda && Values(h)[1] == h.preconditionTopk;
  }

  lemma FieldsAfterSecond(h1: Hyperparams, h2: Hyperparams)
    requires forall j :: 2 <= j < |KeyNames| ==> Values(h1)[j] == Values(h2)[j]
    ensures Fields(h1)[2..] == Fields(h2)[2..]
  {
    assert forall k :: 0 <= k < |KeyNames| - 2 ==>
      Fields(h1)[2..][k] == KeyNames[k + 2] + Values(h1)[k + 2] &&
      Fields(h2)[2..][k] == KeyNames[k + 2] + Values(h2)[k + 2];
  }

  lemma JoinFirstTwo(fs: seq<string>, sep: char)
    requires |fs| >= 3
    ensures Join(fs, sep) == fs[0] + [sep] + fs[1] + [sep] + Join(fs[2..], sep)
  {
    assert fs[1..][0] == fs[1] && fs[1..][1..] == fs[2..];
  }

  /** The pieces of a `/`-split path that name something: not empty, not ".". */
  function Segments(pieces: seq<string>): (segs: seq<string>)
    ensures |segs| <= |pieces|
    ensures forall i :: 0 <= i < |segs| ==> segs[i] in pieces && segs[i] != "" && segs[i] != "."
  {
    if |pieces| == 0 then []
    else
      var rest := Segments(pieces[1..]);
      if pieces[0] == "" || pieces[0] == "." then rest else [pieces[0]] + rest
  }

  /** `Path(p).parts` for a POSIX path: a root part "/" when `p` is absolute,
      then its named segments in order. */
  function PathParts(p: string): (parts: seq<string>)
    ensures forall i :: 0 <= i < |parts| ==> parts[i] != "" && parts[i] != "."
    ensures forall i :: 0 < i < |parts| ==> '/' !in parts[i]
    ensures (|parts| > 0 && parts[0] == "/") <==> (|p| > 0 && p[0] == '/')
  {
    var segs := Segments(Split(p, '/'));
    assert forall i :: 0 <= i < |segs| ==> '/' !in segs[i];
    (if |p| > 0 && p[0] == '/' then ["/"] else []) + segs
  }

  /** `Path(p).name`: the last part, or "" when there is none but the root. */
  function PathName(p: string): (name: string)
    ensures '/' !in name
  {
    var parts := PathParts(p);
    if |parts| == 0 || parts[|parts| - 1] == "/" then "" else parts[|parts| - 1]
  }

  /** Position of the last '.' in `s`, if any. */
  function LastDot(s: string): (r: Option<nat>)
    ensures r.Some? ==> r.value < |s| && s[r.value] == '.' && '.' !in s[r.value + 1..]
    ensures r.None? ==> '.' !in s
  {
    if |s| == 0 then None
    else if s[|s| - 1] == '.' then Some(|s| - 1)
    else
      var r := LastDot(s[..|s| - 1]);
      assert s == s[..|s| - 1] + [s[|s| - 1]];
      if r.Some? then
        assert s[r.value + 1..] == s[..|s| - 1][r.value + 1..] + [s[|s| - 1]];
        r
      else r
  }

  /** `Path(p).stem`: the name less its suffix, the suffix being the part from
      the last '.' on, provided that '.' is neither the first nor the last
      character of the name. */
  function Stem(p: string): (stem: string)
    ensures stem <= PathName(p)
    ensures var name := PathName(p);
      stem == name ||
      (0 < |stem| < |name| - 1 && name[|stem|] == '.' && '.' !in name[|stem| + 1..])
  {
    var name := PathName(p);
    match LastDot(name)
    case Some(i) => if 0 < i < |name| - 1 then name[..i] else name
    case None => name
  }

  /** `Path(p).parts[-1]`, which raises `IndexError` (here `None`) when the
      path has no parts at all, as for "" or ".". */
  function LastPart(p: string): (r: Option<string>)
    ensures r.None? <==> |PathParts(p)| == 0
    ensures r.Some? ==> r.value in PathParts(p) && r.value != ""
  {
    var parts := PathParts(p);
    if |parts| == 0 then None else Some(parts[|parts| - 1])
  }

  /** Segments with nothing to drop are kept as they are. */
  lemma {:induction false} SegmentsKeep(pieces: seq<string>)
    requires forall i :: 0 <= i < |pieces| ==> pieces[i] != "" && pieces[i] != "."
    ensures Segments(pieces) == pieces
    decreases |pieces|
  {
    if |pieces| > 0 {
      SegmentsKeep(pieces[1..]);
      assert [pieces[0]] + pieces[1..] == pieces;
    }
  }

  /** Path components that `Path(...).parts` reports unchanged: at least
      one, none empty, none ".", none holding a '/'. */
  predicate NamedSegments(segs: seq<string>) {
    && |segs| >= 1
    && forall i :: 0 <= i < |segs| ==> segs[i] != "" && segs[i] != "." && '/' !in segs[i]
  }

  /** A relative path written as its components joined by '/' has exactly
      those components as parts, and its last part is the last component. */
  lemma {:induction false} PathPartsOfRelative(segs: seq<string>)
    requires NamedSegments(segs)
    ensures PathParts(Join(segs, '/')) == segs
    ensures LastPart(Join(segs, '/')) == Some(segs[|segs| - 1])
    ensures PathName(Join(segs, '/')) == segs[|segs| - 1]
  {
    var p := Join(segs, '/');
    NamedSegmentsSplit(segs);
    RelativeStart(segs);
    assert [] + segs == segs;
    assert PathParts(p) == segs;
    LastOfParts(p, segs);
  }

  /** The same path made absolute gains the root "/" as its first part. */
  lemma {:induction false} PathPartsOfAbsolute(segs: seq<string>)
    requires NamedSegments(segs)
    ensures PathParts("/" + Join(segs, '/')) == ["/"] + segs
    ensures LastPart("/" + Join(segs, '/')) == Some(segs[|segs| - 1])
    ensures PathName("/" + Join(segs, '/')) == segs[|segs| - 1]
  {
    AbsoluteParts(segs);
    LastOfRooted("/" + Join(segs, '/'), segs);
  }

  lemma AbsoluteParts(segs: seq<string>)
    requires NamedSegments(segs)
    ensures PathParts("/" + Join(segs, '/')) == ["/"] + segs
  {
    var p := "/" + Join(segs, '/');
    assert p == "" + ['/'] + Join(segs, '/');
    SplitCons("", '/', Join(segs, '/'));
    NamedSegmentsSplit(segs);
    assert Segments([""] + segs) == Segments(segs);
  }

  lemma LastOfRooted(p: string, segs: seq<string>)
    requires |segs| > 0 && PathParts(p) == ["/"] + segs
    requires segs[|segs| - 1] != "/"
    ensures LastPart(p) == Some(segs[|segs| - 1])
    ensures PathName(p) == segs[|segs| - 1]
  {
    LastOfParts(p, ["/"] + segs);
  }

  lemma LastOfParts(p: string, parts: seq<string>)
    requires PathParts(p) == parts && |parts| > 0
    ensures LastPart(p) == Some(parts[|parts| - 1])
    ensures parts[|parts| - 1] != "/" ==> PathName(p) == parts[|parts| - 1]
  {
  }

  lemma NamedSegmentsSplit(segs: seq<string>)
    requires NamedSegments(segs)
    ensures Segments(Split(Join(segs, '/'), '/')) == segs
  {
    SplitJoin(segs, '/');
    SegmentsKeep(segs);
  }

  /** A join of named segments does not start at the root. */
  lemma RelativeStart(segs: seq<string>)
    requires NamedSegments(segs)
    ensures |Join(segs, '/')| > 0 && Join(segs, '/')[0] != '/'
  {
    JoinHead(segs, '/');
    assert segs[0][0] in segs[0];
  }

  /** A '.' with no '.' after it is the one `LastDot` finds. */
  lemma LastDotIs(s: string, i: int)
    requires 0 <= i < |s| && s[i] == '.' && '.' !in s[i + 1..]
    ensures LastDot(s) == Some(i)
  {
    assert s[i] in s;
  }

  /** The suffix rule of `Path.stem`: the name is cut exactly when its last
      '.' is neither its first nor its last character, and then it is cut
      just before that '.'. */
  lemma StemSuffixRule(p: string)
    ensures var name := PathName(p);
      Stem(p) != name <==> exists i :: 0 < i < |name| - 1 && name[i] == '.' && '.' !in name[i + 1..]
    ensures var name := PathName(p);
      forall i :: 0 < i < |name| - 1 && name[i] == '.' && '.' !in name[i + 1..] ==> Stem(p) == name[..i]
  {
    var name := PathName(p);
    forall i | 0 < i < |name| - 1 && name[i] == '.' && '.' !in name[i + 1..]
      ensures Stem(p) == name[..i] && Stem(p) != name
    {
      LastDotIs(name, i);
    }
  }

  /** `outpath / model / testset / filename`, as its components. */
  datatype OutPath = OutPath(base: seq<string>, modelName: string, testSet: string, filename: string)

  /** The output file of a run: under `outpath`, a directory named after the
      generation model's last path part, then one named after the input
      file's stem, then the hyperparameter file name. Fails exactly when the
      generation-model path has no parts. */
  function OutfilePath(outpath: string, generationModel: string, infile: string, h: Hyperparams): (r: Option<OutPath>)
    ensures r.None? <==> |PathParts(generationModel)| == 0
    ensures r.Some? && Separable(h) ==> ParseFilename(r.value.filename) == Some(h)
  {
    match LastPart(generationModel)
    case None => None
    case Some(model) =>
      RoundTripWhenSeparable(h);
      Some(OutPath(PathParts(outpath), model, Stem(infile), Filename(h)))
  }

  /** Changing a single hyperparameter changes the output path. */
  lemma OutfilePathOneChange(outpath: string, generationModel: string, infile: string,
                             h1: Hyperparams, h2: Hyperparams, i: int)
    requires DifferOnlyAt(h1, h2, i)
    requires |PathParts(generationModel)| > 0
    ensures OutfilePath(outpath, generationModel, infile, h1) != OutfilePath(outpath, generationModel, infile, h2)
  {
    OneChangeChangesFilename(h1, h2, i);
  }

  /** Two runs with separable hyperparameters write to the same path exactly
      when they agree on the output root's parts, the model directory, the
      test-set stem and every hyperparameter. */
  lemma OutfilePathCollision(o1: string, m1: string, f1: string, h1: Hyperparams,
                             o2: string, m2: string, f2: string, h2: Hyperparams)
    requires Separable(h1) && Separable(h2)
    requires |PathParts(m1)| > 0 && |PathParts(m2)| > 0
    ensures OutfilePath(o1, m1, f1, h1) == OutfilePath(o2, m2, f2, h2) <==>
      && PathParts(o1) == PathParts(o2)
      && LastPart(m1) == LastPart(m2)
      && Stem(f1) == Stem(f2)
      && h1 == h2
  {
    FilenameInjective(h1, h2);
  }

  /** With a generation model written as named components, the output path is
      the output root's parts, then the model's last component, then the
      input file's stem, then the hyperparameter file name, in that order. */
  lemma {:induction false} OutfilePathOfNamed(outpath: string, ms: seq<string>, infile: string, h: Hyperparams)
    requires NamedSegments(ms)
    ensures OutfilePath(outpath, Join(ms, '/'), infile, h)
      == Some(OutPath(PathParts(outpath), ms[|ms| - 1], Stem(infile), Filename(h)))
  {
    PathPartsOfRelative(ms);
  }

  /** `res`, model `m/bart` and test set `d/turk.tsv` give `res/bart/turk/<name>`. */
  lemma {:induction false} OutfilePathExample(h: Hyperparams)
    ensures OutfilePath("res", "m/bart", "d/turk.tsv", h)
      == Some(OutPath(["res"], "bart", "turk", Filename(h)))
  {
    assert "res" == Join(["res"], '/');
    PathPartsOfRelative(["res"]);
    assert "m/bart" == Join(["m", "bart"], '/');
    PathPartsOfRelative(["m", "bart"]);
    assert "d/turk.tsv" == Join(["d", "turk.tsv"], '/');
    PathPartsOfRelative(["d", "turk.tsv"]);
    LastDotIs("turk.tsv", 4);
    assert "turk.tsv"[..4] == "turk";
  }
}

=== FILE: Preprocess.dfy ===
/**
 Source-field extraction for the tab-separated evaluation files: each line
 holds the source sentence in its first column and reference simplifications
 in later ones; only the source is handed to the generator.
 */
module Preprocess {
  import opened Text
  import opened Seqs

  const Tab: char := '\t'

  /** `preprocess_lines`: strip the line, split it on tabs and keep field 0.
      The result is the longest tab-free prefix of the stripped line: it holds
      no tab, and when it is not the whole stripped line a tab follows it. */
  function PreprocessLine(line: string): (source: string)
    ensures Tab !in source
    ensures source <= Strip(line)
    ensures source != Strip(line) ==> Strip(line)[|source|] == Tab
    ensures source == Strip(line) <==> Tab !in Strip(line)
  {
    var fields := Split(Strip(line), Tab);
    SplitHead(Strip(line), Tab);
    if |fields| > 1 then
      assert Strip(line) == fields[0] + [Tab] + Join(fields[1..], Tab);
      fields[0]
    else
      fields[0]
  }

  /** `list(map(preprocess_lines, batch_lines))`. */
  function PreprocessAll(batch: seq<string>): (sources: seq<string>)
    ensures |sources| == |batch|
    ensures forall i {:trigger sources[i]} :: 0 <= i < |batch| ==> sources[i] == PreprocessLine(batch[i])
  {
    MapAll(PreprocessLine, batch)
  }

  /** Preprocessing works line by line, so it commutes with concatenating batches. */
  lemma PreprocessAllAppend(a: seq<string>, b: seq<string>)
    ensures PreprocessAll(a + b) == PreprocessAll(a) + PreprocessAll(b)
  {
    MapAllAppend(PreprocessLine, a, b);
  }

  /** A second application only strips again: the first already left no tab. */
  lemma PreprocessTwice(line: string)
    ensures PreprocessLine(PreprocessLine(line)) == Strip(PreprocessLine(line))
  {
    StripKeepsOut(PreprocessLine(line), Tab);
  }

  /** On a line whose stripped text holds no tab, preprocessing is the
      stripped line and applying it again changes nothing. */
  lemma PreprocessSingleField(line: string)
    requires Tab !in Strip(line)
    ensures PreprocessLine(line) == Strip(line)
    ensures PreprocessLine(PreprocessLine(line)) == PreprocessLine(line)
  {
    PreprocessTwice(line);
    StripIdempotent(line);
  }

  /** A line `src + TAB + more` that starts and ends with non-space
      characters keeps `src`, trailing spaces included. */
  lemma FirstFieldKept(src: string, more: string)
    requires |src| > 0 && !IsSpace(src[0]) && Tab !in src
    requires |more| > 0 && !IsSpace(more[|more| - 1])
    ensures PreprocessLine(src + [Tab] + more) == src
  {
    var line := src + [Tab] + more;
    assert line[0] == src[0] && line[|line| - 1] == more[|more| - 1];
    StripOfTrimmed(line);
    SplitCons(src, Tab, more);
  }

  /** Preprocessing is not idempotent in general: the space before the tab
      survives the first pass and is stripped by the second. */
  lemma PreprocessNotIdempotent()
    ensures PreprocessLine("a \tb") == "a "
    ensures PreprocessLine("a ") == "a"
  {
    SpaceBeforeTab();
    SpaceStripped();
  }

  lemma SpaceBeforeTab()
    ensures PreprocessLine("a \tb") == "a "
  {
    assert "a \tb" == "a " + [Tab] + "b";
    FirstFieldKept("a ", "b");
  }

  lemma SpaceStripped()
    ensures PreprocessLine("a ") == "a"
  {
    assert StrippedAt("a ", 0, 1);
    StripUnique("a ", 0, 1);
    SplitField("a", Tab);
  }
}

=== FILE: Seqs.dfy ===
/** Sequence helpers shared by the batching, preprocessing and driver modules. */
module Seqs {

  /** Concatenation of a sequence of sequences, in order. */
  function Flatten<T>(xss: seq<seq<T>>): seq<T>
  {
    if |xss| == 0 then [] else xss[0] + Flatten(xss[1..])
  }

  lemma {:induction false} FlattenAppend<T>(a: seq<seq<T>>, b: seq<seq<T>>)
    ensures Flatten(a + b) == Flatten(a) + Flatten(b)
    decreases |a|
  {
    if |a| == 0 {
      assert a + b == b;
    } else {
      assert (a + b)[0] == a[0] && (a + b)[1..] == a[1..] + b;
      FlattenAppend(a[1..], b);
    }
  }

  lemma AppendAssoc<T>(a: seq<T>, b: seq<T>, c: seq<T>)
    ensures a + (b + c) == (a + b) + c
  {
  }

  /** `list(map(f, xs))`. */
  function MapAll<A, B>(f: A -> B, xs: seq<A>): (ys: seq<B>)
  {
    seq(|xs|, i requires 0 <= i < |xs| => f(xs[i]))
  }

  lemma MapAllAppend<A, B>(f: A -> B, a: seq<A>, b: seq<A>)
    ensures MapAll(f, a + b) == MapAll(f, a) + MapAll(f, b)
  {
    assert forall i :: 0 <= i < |a| ==> (a + b)[i] == a[i];
    assert forall i :: |a| <= i < |a| + |b| ==> (a + b)[i] == b[i - |a|];
  }

  lemma MapAllOne<A, B>(f: A -> B, x: A)
    ensures MapAll(f, [x]) == [f(x)]
  {
  }

  lemma MapAllPair<A, B>(f: A -> B, x: A, y: A)
    ensures MapAll(f, [x, y]) == [f(x), f(y)]
  {
  }
}

=== FILE: Text.dfy ===
/**
 The two Python `str` methods the batch driver relies on: `strip()` with no
 argument, and `split(sep)` with an explicit one-character separator.
 */
module Text {

  /** Python's `str.isspace` on one character: the characters `str.strip()`
      removes when it is given no argument. */
  predicate IsSpace(c: char) {
    || ('\t' <= c <= '\r')
    || ('\U{1C}' <= c <= '\U{1F}')
    || c == ' '
    || c == '\U{85}'
    || c == '\U{A0}'
    || c == '\U{1680}'
    || ('\U{2000}' <= c <= '\U{200A}')
    || c == '\U{2028}'
    || c == '\U{2029}'
    || c == '\U{202F}'
    || c == '\U{205F}'
    || c == '\U{3000}'
  }

  predicate AllSpace(s: string) {
    forall k :: 0 <= k < |s| ==> IsSpace(s[k])
  }

  /** `s[lo..hi]` is what is left of `s` once its leading and trailing
      whitespace has been removed. */
  predicate StrippedAt(s: string, lo: int, hi: int) {
    && 0 <= lo <= hi <= |s|
    && AllSpace(s[..lo])
    && AllSpace(s[hi..])
    && (lo < hi ==> !IsSpace(s[lo]) && !IsSpace(s[hi - 1]))
  }

  /** Number of whitespace characters at the front of `s`. */
  function LeadingSpace(s: string): (n: nat)
    ensures n <= |s|
    ensures AllSpace(s[..n])
    ensures n < |s| ==> !IsSpace(s[n])
  {
    if |s| > 0 && IsSpace(s[0]) then
      1 + LeadingSpace(s[1..])
    else 0
  }

  /** Index where the trailing run of whitespace of `s` begins. */
  function TrailingStart(s: string): (n: nat)
    ensures n <= |s|
    ensures AllSpace(s[n..])
    ensures n > 0 ==> !IsSpace(s[n - 1])
  {
    if |s| > 0 && IsSpace(s[|s| - 1]) then
      var n := TrailingStart(s[..|s| - 1]);
      assert forall k :: 0 <= k < |s| - 1 - n ==> s[n..][k] == s[..|s| - 1][n..][k];
      n
    else |s|
  }

  /** Python's `s.strip()`. */
  function Strip(s: string): (r: string)
    ensures |r| <= |s|
    ensures exists lo, hi :: StrippedAt(s, lo, hi) && r == s[lo..hi]
  {
    var lo := LeadingSpace(s);
    var t := s[lo..];
    var hi := lo + TrailingStart(t);
    assert s[hi..] == t[hi - lo..];
    assert StrippedAt(s, lo, hi);
    s[lo..hi]
  }

  /** The bounds `Strip` cuts at, named. */
  lemma StripBounds(s: string) returns (lo: int, hi: int)
    ensures StrippedAt(s, lo, hi) && Strip(s) == s[lo..hi]
  {
    lo := LeadingSpace(s);
    hi := lo + TrailingStart(s[lo..]);
    assert s[hi..] == s[lo..][hi - lo..];
  }

  /** Whatever the decomposition, the stripped core of a string is the same. */
  lemma StrippedAtUnique(s: string, lo: int, hi: int, lo': int, hi': int)
    requires StrippedAt(s, lo, hi) && StrippedAt(s, lo', hi')
    ensures s[lo..hi] == s[lo'..hi']
  {
    if lo < hi {
      // a non-empty core starts at the first non-space and ends after the last one
      assert lo' <= lo && lo <= lo' && hi <= hi' && hi' <= hi;
    } else {
      // an empty core means the whole string is whitespace
      assert lo' == hi';
    }
  }

  /** `Strip` is the one and only stripped core: any decomposition of `s` into
      leading whitespace, a core with non-space ends, and trailing whitespace
      yields `Strip(s)`. */
  lemma StripUnique(s: string, lo: int, hi: int)
    requires StrippedAt(s, lo, hi)
    ensures Strip(s) == s[lo..hi]
  {
    var lo', hi' := StripBounds(s);
    StrippedAtUnique(s, lo, hi, lo', hi');
  }

  /** A string with non-space ends, or the empty string, is its own stripped core. */
  lemma StripOfTrimmed(s: string)
    requires s == [] || (!IsSpace(s[0]) && !IsSpace(s[|s| - 1]))
    ensures Strip(s) == s
  {
    assert s[..0] == [] && s[|s|..] == [];
    StripUnique(s, 0, |s|);
  }

  lemma StripIdempotent(s: string)
    ensures Strip(Strip(s)) == Strip(s)
  {
    var lo, hi := StripBounds(s);
    StripOfTrimmed(s[lo..hi]);
  }

  /** Strip only removes characters from the ends, so it adds no new character. */
  lemma StripKeepsOut(s: string, c: char)
    requires c !in s
    ensures c !in Strip(s)
  {
    var lo, hi := StripBounds(s);
    assert forall k :: 0 <= k < hi - lo ==> s[lo..hi][k] == s[lo + k];
  }

  /** The inverse of `Split`: the fields with one separator between neighbours. */
  function Join(fields: seq<string>, sep: char): (s: string)
    requires |fields| >= 1
  {
    if |fields| == 1 then fields[0] else fields[0] + [sep] + Join(fields[1..], sep)
  }

  /** Python's `s.split(sep)` for a one-character separator: the maximal
      separator-free pieces of `s`, including empty ones. */
  function Split(s: string, sep: char): (fields: seq<string>)
    ensures |fields| >= 1
    ensures forall i :: 0 <= i < |fields| ==> sep !in fields[i]
    ensures Join(fields, sep) == s
  {
    if |s| == 0 then [""]
    else
      var rest := Split(s[1..], sep);
      if s[0] == sep then
        assert ([""] + rest)[1..] == rest;
        [""] + rest
      else
        var fields := [[s[0]] + rest[0]] + rest[1..];
        assert fields[1..] == rest[1..];
        fields
  }

  /** A field that holds no separator is split off whole. */
  lemma SplitField(f: string, sep: char)
    requires sep !in f
    ensures Split(f, sep) == [f]
    decreases |f|
  {
    if |f| > 0 {
      SplitField(f[1..], sep);
      assert [f[0]] + f[1..] == f;
    }
  }

  lemma {:induction false} SplitCons(f: string, sep: char, t: string)
    requires sep !in f
    ensures Split(f + [sep] + t, sep) == [f] + Split(t, sep)
    decreases |f|
  {
    if |f| == 0 {
      assert f + [sep] + t == [sep] + t;
      assert ([sep] + t)[1..] == t;
    } else {
      var s := f + [sep] + t;
      assert s[0] == f[0] && s[1..] == f[1..] + [sep] + t;
      SplitCons(f[1..], sep, t);
      assert [f[0]] + f[1..] == f;
    }
  }

  /** Splitting undoes joining when no field holds the separator. */
  lemma {:induction false} SplitJoin(fields: seq<string>, sep: char)
    requires |fields| >= 1
    requires forall i :: 0 <= i < |fields| ==> sep !in fields[i]
    ensures Split(Join(fields, sep), sep) == fields
    decreases |fields|
  {
    if |fields| == 1 {
      SplitField(fields[0], sep);
    } else {
      SplitJoin(fields[1..], sep);
      SplitCons(fields[0], sep, Join(fields[1..], sep));
      assert [fields[0]] + fields[1..] == fields;
    }
  }

  /** The first field of a split is a prefix of the string, and the whole
      string exactly when the separator does not occur in it. */
  lemma SplitHead(s: string, sep: char)
    ensures Split(s, sep)[0] <= s
    ensures Split(s, sep)[0] == s <==> sep !in s
  {
    var fields := Split(s, sep);
    if |fields| > 1 {
      assert s == fields[0] + [sep] + Join(fields[1..], sep);
      assert s[|fields[0]|] == sep;
    }
  }

  /** The first field opens the joined string. */
  lemma JoinHead(fields: seq<string>, sep: char)
    requires |fields| >= 1
    ensures fields[0] <= Join(fields, sep)
  {
  }

  lemma AppendCancelRight(a: string, b: string, t: string)
    ensures a + t == b + t ==> a == b
  {
    if a + t == b + t {
      assert a == (a + t)[..|a|] && b == (b + t)[..|b|];
    }
  }

  lemma AppendCancelLeft(p: string, a: string, b: string)
    ensures p + a == p + b ==> a == b
  {
    if p + a == p + b {
      assert a == (p + a)[|p|..] && b == (p + b)[|p|..];
    }
  }

  /** Joining is injective in any single field: when two field lists agree
      everywhere but at `i`, where they differ, the joined strings differ
      (in length, or else at the first differing position of field `i`). */
  lemma {:induction false} JoinOneChange(fs: seq<string>, gs: seq<string>, sep: char, i: nat)
    requires |fs| == |gs| >= 1 && i < |fs|
    requires fs[i] != gs[i]
    requires forall j :: 0 <= j < |fs| && j != i ==> fs[j] == gs[j]
    ensures Join(fs, sep) != Join(gs, sep)
    decreases |fs|
  {
    if |fs| > 1 {
      if i == 0 {
        assert fs[1..] == gs[1..];
        AppendCancelRight(fs[0], gs[0], [sep] + Join(fs[1..], sep));
        assert Join(fs, sep) == fs[0] + ([sep] + Join(fs[1..], sep));
        assert Join(gs, sep) == gs[0] + ([sep] + Join(fs[1..], sep));
      } else {
        JoinOneChange(fs[1..], gs[1..], sep, i - 1);
        AppendCancelLeft(fs[0] + [sep], Join(fs[1..], sep), Join(gs[1..], sep));
      }
    }
  }
}

=== FILE: Wrappers.dfy ===
/** The optional-value type shared by the other modules. */
module Wrappers {

  /** `None` where Python raises `IndexError` or finds nothing, `Some` otherwise. */
  datatype Option<+T> = None | Some(value: T)
}
